=== FILE: README.md ===
# Minifpy build logic in Dafny

Minifpy keeps minified JavaScript and CSS assets up to date. A settings value
lists, for each asset kind (`"js"`, `"css"`), *minify rules* (`from` is
minified into `to`) and *merge rules* (the `from` list is concatenated into
`to`, which is then minified into `to_min`). The tool runs in one of these
modes:

- **single file**: build what one changed path affects;
- **whole project**: run every rule;
- **no settings**: fall back to minifying a lone `.js` file into `<name>.min.js`;
- **watch**: rebuild on every accepted change event.

After each minified write it checks that the destination's modification time
is recent. A destination more than 10 seconds old is recorded in an error
ledger. The process exits with 1 when the ledger is non-empty.

This project models that logic as pure functions over immutable values:

- The filesystem is a `map<string, string>` from path to content.
- The ledger is a sequence of destinations, threaded through every action in a `State`.
- The two minifiers, the directory the program lives in, the native path separator and the clock are parameters, bundled in `Build.Tools`.
- An uncaught Python exception is a `Failure(Crash)`. In file and project modes it ends the run with status 1. In watch mode it is raised on the observer's thread, outside the modelled handler (see "## Left out").

Modules, leaves first:

- `Wrappers`: `Option` and `Result`.
- `Paths`: extension classification, separator rewriting, the project-relative form of a path, and `os.path.join`.
- `Settings`: the parsed rule datatypes and the per-kind lookup.
- `Impact`: the impact list of a changed path. The scanning loops (`ImpactedFiles`) are proved equal to a reference definition (`Impacted`: first-seen deduplication of the scanned candidates). Lemmas prove that the list has no duplicates, holds exactly the right targets, and keeps the right order.
- `Build`: minify, merge, the merge-then-minify pair, and the staleness check.
- `Dispatch`: the rule actions and the step lists of single-file and whole-project mode. The whole-project loops are proved equal to the reference order `ProjectSteps`.
- `Cli`: the no-settings fallback, the watch filter and handler, the exit code, and one complete run.

Some behaviour of the code is easy to misread:

- **Minifier choice.** A minify rule picks its minifier from the extension of its resolved `from` path. A merge rule picks it from the extension of its resolved `to` path. The kind the rule is listed under does not matter. A merge rule whose `to` has no kind does nothing at all.
- **Truncate before read.** A destination is opened for writing, and so emptied, before any source is read. A file minified onto itself becomes the minified empty text. A merge whose destination is also one of its sources reads that source as empty.
- **Impact resolution re-reads the settings file.** When given falsy settings (absent or `{}`), impact resolution reads the settings file again (`onDisk`). Falsy given settings alone give the empty list only when the settings file is falsy too. With truthy settings from either place, the list is still empty for a path of no kind or one that no rule names.
- **Missing merge source.** A merge source that does not exist raises. In file and project modes the run then ends with status 1. A missing minify source is only reported as information.
- **`--project` is unused.** The flag is parsed but never read. Whole-project mode runs whenever no file path and no watch flag are given and the settings are truthy.

## Model

| member | source | states |
|---|---|---|
| Paths.GetExtension | minifpy.py:177-182 | The kind is JS exactly when the lower-cased path ends in ".js", and CSS exactly when it ends in ".css". Otherwise there is no kind. A path with a kind is at least three characters long. |
| Paths.ExtensionIgnoresCase | minifpy.py:177-182 | Any path ending in a kind's suffix in any mix of upper and lower case has that kind, so "A.JS" is JavaScript. |
| Paths.OsPath | minifpy.py:171-175 | The length is preserved. On "/" no backslash remains, and otherwise no "/" remains. Every character is either kept or turned into the native separator, and characters other than the two separators are kept. |
| Paths.Join | minifpy.py:185-186 | A path starting with the separator stands alone. Otherwise the result is the directory followed by the path, with exactly one separator inserted unless the directory is empty or already ends in one. |
| Paths.RelativePath | minifpy.py:161-169 | On "/", a path not starting with "/" is unchanged. An absolute path becomes the suffix that remains after removing as many characters as the project directory has, plus one, or "" when that runs past the end. On "\\", no backslash remains. |
| Paths.RelativeOfResolved | minifpy.py:161-175 | Take a forward-slash project path, resolve it against the project directory with native separators, and make it relative again: the result is the original path, under both separator conventions. |
| Paths.RelativeCutsByLength | minifpy.py:163-164 | The prefix is never compared. An absolute path under another directory whose name has the project directory's length is relativised as if it lay inside the project. |
| Settings.RulesFor | minifpy.py:211-221 | A kind the settings do not mention gives two empty lists. Inside a kind's entry, a missing `minify_files` or `merge_files` key gives an empty list, and a present key gives exactly its list. |
| Impact.ImpactedFiles | minifpy.py:223-244 | The scanning loops return exactly the reference impact list. The list is empty when the path has no kind, and also when both the given settings and the settings file are falsy. |
| Impact.ImpactedNoDuplicates | minifpy.py:232-243 | No target appears twice in the impact list. |
| Impact.ImpactedMembers | minifpy.py:229-243 | A target is in the list exactly when it is the `to` of a minify rule whose `from` is the path, or the `to` or `to_min` of a merge rule whose `from` list contains the path. |
| Impact.ImpactedFirstSeen | minifpy.py:232-243 | Targets keep first-seen order. An earlier entry was met in the rule scan before every occurrence of any later entry. |
| Impact.ImpactedMinifyFirst | minifpy.py:232-243 | A target reached through a minify rule is preceded only by targets also reached through minify rules. |
| Impact.MergedBeforeMinified | minifpy.py:237-243 | Take a merge rule that contains the path and has distinct `to` and `to_min`. If no earlier rule already reached either of them, its `to` is listed before its `to_min`. |
| Build.CheckWrite | minifpy.py:106-115 | The filesystem is unchanged. The destination is appended to the ledger exactly when its age is strictly greater than 10 seconds, so an age of exactly 10 seconds counts as success. |
| Build.MinifyFile | minifpy.py:98-117 | A missing source changes nothing. Otherwise only the destination changes, and it becomes the transform of the source's content, or of "" when source and destination are the same file. The ledger gains the destination exactly when the write is stale. |
| Build.ReadAll | minifpy.py:157-159 | Reading succeeds exactly when every path exists. On failure it reports the first missing path in list order. |
| Build.ReadAllAppend | minifpy.py:157-159 | Reading a + b gives the content of a followed by the content of b, and a failure in a stops the read. Order is kept and repeated paths are read again. |
| Build.MergeFile | minifpy.py:152-159 | The merge succeeds exactly when every source exists or is the destination itself. The destination gets the in-order concatenation of its sources, read after the destination was emptied. No other file changes. |
| Build.MergeMinify | minifpy.py:120-122 | The pair succeeds exactly when every source exists or is `to` itself. On success, and when `to` and `to_min` differ, `to` holds the in-order concatenation of the sources and `to_min` holds the transform of that content. When they are the same file, it holds the transform of the empty text. No other files change. The ledger gains `to_min` exactly when that write is stale. A crash can only be a missing source. |
| Dispatch.MinifyFileSettings | minifpy.py:184-193 | A `from` with no kind, or one that does not exist, changes nothing. Otherwise the absolute `to` is created or overwritten with the minified absolute `from`, using the minifier of `from`'s kind. When `from` and `to` are the same file, it gets the minified empty text. No other file changes. The ledger gains the destination exactly when `from` has a kind, exists, and the write is stale. |
| Dispatch.MergeMinifyFileSettings | minifpy.py:195-209 | A `to` with no kind changes nothing, even when sources are missing. Otherwise the action succeeds exactly when every absolute source exists or is the absolute `to`. On success, and when `to` and `to_min` differ, `to` holds the in-order concatenation of the sources, read after `to` was emptied, and `to_min` holds its minified form, using the minifier of `to`'s kind. When they are the same file, it holds the minified empty text. Only those two files change. The ledger gains `to_min` exactly when that write is stale. A crash is a missing source. |
| Dispatch.RunSteps | minifpy.py:251-258 | Actions run in sequence. The ledger only grows, and the only way a run aborts is a missing merge source. |
| Dispatch.RunStepsFrame | minifpy.py:251-258 | A file that no step of the run writes keeps its content. |
| Dispatch.FileStepTargets | minifpy.py:247-258 | The targets single-file mode rebuilds, in order and with repeats, are exactly the candidates the impact resolver scans. So the set it rebuilds equals the impact list. |
| Dispatch.MergeStepsPerOccurrence | minifpy.py:255-258 | Single-file mode calls a merge rule's action once for each occurrence of the path in its `from` list, without deduplication. Every such call is for a rule whose `from` list holds the path. |
| Dispatch.ManageMinifyFileProject | minifpy.py:247-258 | Single-file mode for a path of a known kind only appends to the ledger. It aborts only on a missing merge source. It neither changes nor creates any file other than the absolute forms of targets in the path's impact list. |
| Dispatch.RunMinifyRules | minifpy.py:265-266 | The loop over one kind's minify rules equals running one minify action per rule, in list order. |
| Dispatch.RunMergeRules | minifpy.py:268-269 | The loop over one kind's merge rules equals running one merge action per rule, in list order, and stops at the first crash. |
| Dispatch.RunRules | minifpy.py:263-269 | For one kind, all minify rules run before all merge rules. |
| Dispatch.ManageAllFiles | minifpy.py:260-269 | Whole-project mode equals the reference sequence: JavaScript minify rules, JavaScript merge rules, CSS minify rules, then CSS merge rules. |
| Dispatch.ProjectStepCounts | minifpy.py:260-269 | That sequence has exactly one minify action per minify rule and one merge action per merge rule across both kinds, and nothing else. |
| Cli.MinifyFallback | minifpy.py:271-273 | Without settings, only an existing JavaScript path is built. Its content is minified into the same name with ".js" replaced by ".min.js". That one file is added or overwritten, and nothing else changes. The ledger gains it exactly when the write is stale. A CSS path, or a path that does not exist, is left alone. |
| Cli.WatchAccepts | minifpy.py:322 | A change event is built exactly when its path ends in ".js" or ".css" in any case and does not contain ".min.". |
| Cli.FallbackOutputIgnored | minifpy.py:322 | The fallback's output name is again JavaScript but contains ".min.", so the watch filter rejects it and it cannot retrigger a build. |
| Cli.ManageFileChangesAsWritten | minifpy.py:275-279 | As the code has it, single-file mode crashes on a path of no kind exactly when the settings are truthy. Any other crash is a missing merge source. Without settings it is the fallback. |
| Cli.UnknownKindCrashes | minifpy.py:275-277 | As written, with truthy settings, single-file mode on "README.md" raises instead of ignoring the file. |
| Cli.ManageFileChanges | minifpy.py:275-279 | With the correction, a path with no kind is ignored, and the only crash left is a missing merge source. Without settings the run never crashes. Whenever the path has a kind or there are no settings, it agrees with the code as written. |
| Cli.OnModified | minifpy.py:320-324 | A path rejected by the filter changes nothing. An accepted path is built with the settings re-read for that event, exactly as the code as written does, so the crash above cannot occur in watch mode. |
| Cli.ExitCode | minifpy.py:281-286 | The status is 0 or 1. It is 0 exactly when the run did not crash and the ledger is empty. |
| Cli.Invocation | minifpy.py:312-337 | As the code has it: the ledger starts empty. A file path selects single-file mode, including its crash on a path of no kind. Otherwise truthy settings select whole-project mode, and otherwise nothing is built. The status is 0 exactly when the run neither crashed nor recorded an error. |
| Cli.InvocationCorrected | minifpy.py:312-337 | The same run with single-file mode corrected. It equals the run as written except where that run crashes on a path of no kind, and the only crash left is a missing merge source. |

## Findings

| source | as written | input that shows it | evidently intended | confidence | as-written member | corrected member |
|---|---|---|---|---|---|---|
| minifpy.py:275-277 | With truthy settings, `manage_file_changes` passes `get_extension(file_path)` on unchecked. For a path with no kind that value is `None`, and `get_settings_file_extension` slices it (`extension[1:]`, line 214), which raises a TypeError. | `--file_path README.md` with a settings file present | ignore a path with no asset kind, as the watch filter and impact resolution do | high; not executed | Cli.UnknownKindCrashes | Cli.ManageFileChanges |

`Cli.ManageFileChangesAsWritten` models the code as written, and `Cli.Invocation` models the run that uses it. `Cli.InvocationCorrected` and `Cli.OnModified` use the corrected `Cli.ManageFileChanges`. `Cli.OnModified`'s contract shows that the two agree on every path the watch filter accepts.

## Left out

- Reading the settings file (lines 288-296, `ast.literal_eval`): the settings arrive already parsed, as `Option<Config>`, where None means the file is absent. Malformed settings, and entries lacking `from`/`to`/`to_min`, are not modelled.
- The minifiers (`slimit.minify`, `csscompressor.compress`, lines 91-95): they are the total functions `Tools.minifyJs` and `Tools.minifyCss`, so a minifier that raises is not modelled.
- The header branch of `merge_file` (lines 154-156): every caller passes `None`, so it is unreachable.
- The watch loop (lines 17-22, 307-308, 319-334): the observer thread, the sleep loop, the keyboard interrupt and the disabling of watch mode when watchdog is missing are not modelled. Only the event filter and the per-event handler are. `Cli.Invocation` covers the file and project modes. In watch mode an exception raised while handling an event (`Cli.OnModified` returning `Failure`) is raised on the observer's thread. What the watch library then does is not modelled. The main thread's sleep loop (lines 329-331) does not see the exception, and the final status check (lines 281-286, 337) reads only the error log.
- Clock and `os.stat`: `Tools.ageOf` gives the observed age of each destination in seconds. A destination written twice in one run reads the same age both times.
- Terminal output: coloured messages, `--verbose` and the info/success/error lines are not modelled. One detail is lost with them: the "file does not exists" message names the destination, not the missing source.
- Error log format: a ledger entry is the destination path, not the text line written to the log file.
- Case folding: `Paths.Lower` lowers only ASCII letters. This is enough for deciding the `.js`/`.css` suffix, but it does not model Python's full Unicode `str.lower`.
- Windows joining: `Paths.Join` follows POSIX `os.path.join`. Drive-letter rules of Windows joins are not modelled.
- Path identity: the filesystem is keyed by path strings. A relative `--file_path`, which the fallback uses as given, and its absolute form are different files in the model. "Source and destination are the same file" is a comparison of strings, so links and `..` segments are not resolved.
- Real filesystem details: directories, permissions, encodings and buffered writes are not modelled. Neither is the partly written destination left behind by a crash; a crash is only `Failure`.
- Paths.RelativePath: on the Windows convention the contract states only that no backslash remains. `Paths.RelativeOfResolved` covers the round trip.
- Paths.RelativeOfResolved: requires that the program's directory does not end in the separator. At the filesystem root, where that directory is "/", the code cuts `len("/") + 1` characters (line 164) and so loses the first character of the relative path. For example, "/ab.js" becomes "b.js". The round trip is not promised for that placement.
- Paths.RelativePath: requires a non-empty path on the "/" convention, where the code indexes its first character. Every caller passes a non-empty path.

=== FILE: build.dfy ===
/** The build actions over an abstract filesystem: minifying one file, merging
    several into one, and the staleness check that follows every minified
    write. The filesystem maps each existing file's path to its content. */
module Build {
  import opened Wrappers

  type FileSystem = map<string, string>

  /** The files, and the error ledger: one entry, the destination, per write
      that looked stale. */
  datatype State = State(fs: FileSystem, errors: seq<string>)

  /** Why a run stops with an uncaught exception. */
  datatype Crash =
    | MissingSource(path: string)  // reading a merge source that does not exist
    | NoKind(path: string)         // single-file mode handed a path with no kind

  /** What the tool takes from outside: the native separator, the directory
      the program lives in, the two minifiers, and the clock's reading of how
      many seconds old each freshly written destination is. */
  datatype Tools = Tools(
    sep: char,
    base: string,
    minifyJs: string -> string,
    minifyCss: string -> string,
    ageOf: string -> real)

  /** Seconds after which a just-written destination counts as not written. */
  const StaleAfter: real := 10.0

  /** The staleness check: a destination older than the threshold adds a
      ledger entry; one exactly at the threshold or younger does not. */
  function CheckWrite(ageOf: string -> real, st: State, dest: string): (r: State)
    ensures r.fs == st.fs
    ensures r.errors == st.errors || r.errors == st.errors + [dest]
    ensures r.errors != st.errors <==> ageOf(dest) > StaleAfter
  {
    if ageOf(dest) > StaleAfter then State(st.fs, st.errors + [dest]) else st
  }

  /** Minifies source into dest with `transform`. Nothing happens when source
      does not exist. The destination is opened for writing, and so emptied,
      before the source is read: a file minified onto itself becomes the
      minified empty text. */
  function MinifyFile(transform: string -> string, ageOf: string -> real, st: State, source: string, dest: string): (r: State)
    ensures source !in st.fs ==> r == st
    ensures source in st.fs ==> r.fs.Keys == st.fs.Keys + {dest}
    ensures source in st.fs && source != dest ==> r.fs[dest] == transform(st.fs[source])
    ensures source in st.fs && source == dest ==> r.fs[dest] == transform("")
    ensures forall k :: k in st.fs && k != dest ==> k in r.fs && r.fs[k] == st.fs[k]
    ensures r.errors == st.errors || r.errors == st.errors + [dest]
    ensures r.errors != st.errors <==> source in st.fs && ageOf(dest) > StaleAfter
  {
    if source !in st.fs then st
    else
      var truncated := st.fs[dest := ""];
      CheckWrite(ageOf, State(truncated[dest := transform(truncated[source])], st.errors), dest)
  }

  /** The contents of `paths`, read in order and concatenated; the first path
      that does not exist aborts the read. */
  function ReadAll(fs: FileSystem, paths: seq<string>): (r: Result<string, Crash>)
    ensures r.Success? <==> forall i :: 0 <= i < |paths| ==> paths[i] in fs
    ensures r.Failure? ==>
      exists i :: (0 <= i < |paths| && paths[i] !in fs && r.error == MissingSource(paths[i])
                   && forall m :: 0 <= m < i ==> paths[m] in fs)
  {
    if |paths| == 0 then Success("")
    else if paths[0] !in fs then Failure(MissingSource(paths[0]))
    else
      match ReadAll(fs, paths[1..])
      case Success(rest) => Success(fs[paths[0]] + rest)
      case Failure(e) => Failure(e)
  }

  /** Reading a list in two parts reads the parts one after the other: order
      is kept and repeated paths are read again. */
  lemma {:induction false} ReadAllAppend(fs: FileSystem, a: seq<string>, b: seq<string>)
    ensures ReadAll(fs, a + b) ==
      match ReadAll(fs, a)
      case Failure(e) => Failure(e)
      case Success(x) =>
        match ReadAll(fs, b)
        case Failure(e) => Failure(e)
        case Success(y) => Success(x + y)
  {
    if |a| > 0 {
      assert (a + b)[1..] == a[1..] + b;
      ReadAllAppend(fs, a[1..], b);
      if a[0] in fs {
        match ReadAll(fs, a[1..])
        case Failure(e) =>
        case Success(x) =>
          match ReadAll(fs, b)
          case Failure(e) =>
          case Success(y) =>
            assert fs[a[0]] + (x + y) == (fs[a[0]] + x) + y;
      }
    } else {
      assert a + b == b;
      match ReadAll(fs, b)
      case Failure(e) =>
      case Success(y) => assert "" + y == y;
    }
  }

  /** Writes dest as the concatenation of the sources' contents. The
      destination is emptied first, so it exists, and reads as empty, if it
      is also a source. A missing source aborts the run. */
  function MergeFile(fs: FileSystem, sources: seq<string>, dest: string): (r: Result<FileSystem, Crash>)
    ensures r.Success? <==> forall i :: 0 <= i < |sources| ==> sources[i] in fs || sources[i] == dest
    ensures r.Failure? ==> r.error.MissingSource?
    ensures r.Success? ==> r.value.Keys == fs.Keys + {dest}
    ensures r.Success? ==> forall k :: k in fs && k != dest ==> r.value[k] == fs[k]
    ensures r.Success? ==> ReadAll(fs[dest := ""], sources) == Success(r.value[dest])
  {
    var truncated := fs[dest := ""];
    match ReadAll(truncated, sources)
    case Success(text) => Success(truncated[dest := text])
    case Failure(e) => Failure(e)
  }

  /** Merges the sources into `merged` and minifies that into `minified`.
      Only the minified write is checked for staleness. */
  function MergeMinify(transform: string -> string, ageOf: string -> real, st: State, sources: seq<string>, merged: string, minified: string)
    : (r: Result<State, Crash>)
    ensures r.Success? <==> forall i :: 0 <= i < |sources| ==> sources[i] in st.fs || sources[i] == merged
    ensures r.Failure? ==> r.error.MissingSource?
    ensures r.Success? ==> r.value.fs.Keys == st.fs.Keys + {merged, minified}
    ensures r.Success? ==> forall k :: k in st.fs && k != merged && k != minified ==> r.value.fs[k] == st.fs[k]
    ensures r.Success? && merged != minified ==> r.value.fs[minified] == transform(r.value.fs[merged])
    ensures r.Success? && merged == minified ==> r.value.fs[merged] == transform("")
    ensures r.Success? && merged != minified ==> ReadAll(st.fs[merged := ""], sources) == Success(r.value.fs[merged])
    ensures r.Success? ==> (r.value.errors == st.errors || r.value.errors == st.errors + [minified])
    ensures r.Success? ==> (r.value.errors != st.errors <==> ageOf(minified) > StaleAfter)
  {
    match MergeFile(st.fs, sources, merged)
    case Failure(e) => Failure(e)
    case Success(fs) => Success(MinifyFile(transform, ageOf, State(fs, st.errors), merged, minified))
  }
}

=== FILE: cli.dfy ===
/** The entry points: single-file mode with and without settings, the
    watch-event filter and handler, and the exit code of a run. */
module Cli {
  import opened Wrappers
  import opened Paths
  import opened Settings
  import opened Build
  import opened Dispatch

  /** The output name of the settings-free fallback: the last three
      characters are replaced by ".min.js". */
  function MinName(p: string): string
    requires |p| >= 3
  {
    p[..|p| - 3] + ".min.js"
  }

  /** The settings-free fallback: a JavaScript path is minified next to
      itself; any other path, CSS included, is left alone, and so is a
      JavaScript path that does not exist. */
  function MinifyFallback(tools: Tools, st: State, p: string): (r: State)
    ensures GetExtension(p) != Some(Js) || p !in st.fs ==> r == st
    ensures GetExtension(p) == Some(Js) && p in st.fs ==>
      && r.fs.Keys == st.fs.Keys + {MinName(p)}
      && r.fs[MinName(p)] == tools.minifyJs(st.fs[p])
    ensures GetExtension(p) == Some(Js) ==>
      && (forall k :: k in st.fs && k != MinName(p) ==> k in r.fs && r.fs[k] == st.fs[k])
      && (r.errors == st.errors || r.errors == st.errors + [MinName(p)])
      && (r.errors != st.errors <==> p in st.fs && tools.ageOf(MinName(p)) > StaleAfter)
  {
    if GetExtension(p) == Some(Js) then
      assert |MinName(p)| != |p|;
      MinifyFile(tools.minifyJs, tools.ageOf, st, p, MinName(p))
    else st
  }

  /** The watch filter: the changed path has a kind and is not itself a
      minified output. */
  predicate WatchAccepts(p: string): (b: bool)
    ensures b <==> (EndsWith(Lower(p), ".js") || EndsWith(Lower(p), ".css")) && !Contains(p, ".min.")
  {
    GetExtension(p).Some? && !Contains(p, ".min.")
  }

  /** The fallback's output is again a JavaScript file, but the watch filter
      rejects it, so writing it cannot trigger another rebuild. */
  lemma FallbackOutputIgnored(p: string)
    ensures GetExtension(p) == Some(Js) ==>
      GetExtension(MinName(p)) == Some(Js) && !WatchAccepts(MinName(p))
  {
    if GetExtension(p) == Some(Js) {
      var stem := p[..|p| - 3];
      MinNameIsJs(stem);
      MarkerInMinName(stem);
    }
  }

  lemma MinNameIsJs(stem: string)
    ensures GetExtension(stem + ".min.js") == Some(Js)
  {
    LowerJs();
    assert stem + ".min.js" == (stem + ".min") + ".js";
    ExtensionIgnoresCase(stem + ".min", ".js", Js);
  }

  lemma LowerJs()
    ensures Lower(".js") == ".js"
  {
    var l := Lower(".js");
    assert l[0] == '.' && l[1] == 'j' && l[2] == 's';
  }

  lemma MarkerInMinName(stem: string)
    ensures Contains(stem + ".min.js", ".min.")
  {
    var s := stem + ".min.js";
    assert s[|stem|..|stem| + 5] == ".min.";
    assert OccursAt(s, ".min.", |stem|);
  }

  /** Single-file mode exactly as minifpy has it: with truthy settings a
      path of no kind raises, since the missing extension is sliced. */
  function ManageFileChangesAsWritten(tools: Tools, st: State, p: string, settings: Option<Config>): (r: Result<State, Crash>)
    requires |p| > 0
    ensures r.Failure? && r.error.NoKind? <==> Truthy(settings) && GetExtension(p).None?
    ensures r.Failure? ==> r.error == NoKind(p) || r.error.MissingSource?
    ensures !Truthy(settings) ==> r == Success(MinifyFallback(tools, st, p))
  {
    if Truthy(settings) then
      match GetExtension(p)
      case None => Failure(NoKind(p))
      case Some(ext) => ManageMinifyFileProject(tools, st, p, ext, settings.value)
    else Success(MinifyFallback(tools, st, p))
  }

  /** Minifpy as written aborts a configured single-file run on a path
      such as "README.md" instead of ignoring it. */
  lemma UnknownKindCrashes(tools: Tools, st: State, config: Config)
    requires |config| > 0
    ensures ManageFileChangesAsWritten(tools, st, "README.md", Some(config)) == Failure(NoKind("README.md"))
  {
    var l := Lower("README.md");
    assert l[|l| - 3..] == ".md";
    assert l[|l| - 4..] == "e.md";
    assert GetExtension("README.md") == None;
  }

  /** Single-file mode, corrected: a path of no kind is ignored, as it is by
      impact resolution and by the watch filter. */
  function ManageFileChanges(tools: Tools, st: State, p: string, settings: Option<Config>): (r: Result<State, Crash>)
    requires |p| > 0
    ensures GetExtension(p).None? ==> r == Success(st)
    ensures r.Failure? ==> r.error.MissingSource?
    ensures !Truthy(settings) ==> r.Success?
    ensures GetExtension(p).Some? || !Truthy(settings) ==> r == ManageFileChangesAsWritten(tools, st, p, settings)
  {
    if Truthy(settings) then
      match GetExtension(p)
      case None => Success(st)
      case Some(ext) => ManageMinifyFileProject(tools, st, p, ext, settings.value)
    else Success(MinifyFallback(tools, st, p))
  }

  /** The handler for one change event, given the settings as re-read for
      that event. Only paths the filter accepts are built, so the crash of
      the uncorrected single-file mode cannot be reached from here. */
  function OnModified(tools: Tools, st: State, p: string, reloaded: Option<Config>): (r: Result<State, Crash>)
    ensures !WatchAccepts(p) ==> r == Success(st)
    ensures r.Failure? ==> r.error.MissingSource?
    ensures WatchAccepts(p) ==> r == ManageFileChangesAsWritten(tools, st, p, reloaded)
  {
    if WatchAccepts(p) then ManageFileChanges(tools, st, p, reloaded) else Success(st)
  }

  /** The process status: 1 after an uncaught exception or when the ledger
      holds an entry, 0 otherwise. */
  function ExitCode(r: Result<State, Crash>): (code: int)
    ensures code == 0 || code == 1
    ensures code == 0 <==> r.Success? && r.value.errors == []
  {
    match r
    case Failure(_) => 1
    case Success(st) => if |st.errors| > 0 then 1 else 0
  }

  /** One run outside watch mode, as minifpy has it: the ledger starts
      empty; a file path selects single-file mode, otherwise truthy settings
      select whole-project mode, otherwise nothing is built. */
  method Invocation(tools: Tools, fs: FileSystem, filePath: string, settings: Option<Config>)
    returns (r: Result<State, Crash>, code: int)
    ensures |filePath| > 0 ==> r == ManageFileChangesAsWritten(tools, State(fs, []), filePath, settings)
    ensures |filePath| == 0 && Truthy(settings) ==> r == RunSteps(tools, State(fs, []), ProjectSteps(settings.value))
    ensures |filePath| == 0 && !Truthy(settings) ==> r == Success(State(fs, []))
    ensures r.Failure? ==> r.error == NoKind(filePath) || r.error.MissingSource?
    ensures code == 0 || code == 1
    ensures code == 0 <==> r.Success? && r.value.errors == []
  {
    var st := State(fs, []);
    if |filePath| > 0 {
      r := ManageFileChangesAsWritten(tools, st, filePath, settings);
    } else if Truthy(settings) {
      r := ManageAllFiles(tools, st, settings.value);
    } else {
      r := Success(st);
    }
    code := ExitCode(r);
  }

  /** One run outside watch mode with single-file mode corrected: the run as
      minifpy has it, except that the crash on a path of no kind becomes a run
      that builds nothing. */
  method InvocationCorrected(tools: Tools, fs: FileSystem, filePath: string, settings: Option<Config>)
    returns (r: Result<State, Crash>, code: int)
    ensures |filePath| > 0 ==> r == ManageFileChanges(tools, State(fs, []), filePath, settings)
    ensures |filePath| > 0 && ManageFileChangesAsWritten(tools, State(fs, []), filePath, settings) != Failure(NoKind(filePath)) ==>
      r == ManageFileChangesAsWritten(tools, State(fs, []), filePath, settings)
    ensures |filePath| == 0 && Truthy(settings) ==> r == RunSteps(tools, State(fs, []), ProjectSteps(settings.value))
    ensures |filePath| == 0 && !Truthy(settings) ==> r == Success(State(fs, []))
    ensures r.Failure? ==> r.error.MissingSource?
    ensures code == 0 || code == 1
    ensures code == 0 <==> r.Success? && r.value.errors == []
  {
    var written, _ := Invocation(tools, fs, filePath, settings);
    r := if written == Failure(NoKind(filePath)) then Success(State(fs, [])) else written;
    code := ExitCode(r);
  }
}

=== FILE: dispatch.dfy ===
/** Running rules: the action for one minify rule or one merge rule, the
    single-file mode that runs the rules a changed path belongs to, and the
    whole-project mode that runs every rule. */
module Dispatch {
  import opened Wrappers
  import opened Paths
  import opened Settings
  import opened Build
  import opened Impact

  /** One call of the action for a minify rule or for a merge rule. */
  datatype Step = MinifyStep(minifyRule: MinifyRule) | MergeStep(mergeRule: MergeRule)

  /** A rule path made absolute for I/O: native separators, joined onto the
      program's directory. */
  function Absolute(tools: Tools, path: string): string {
    Join(tools.sep, tools.base, OsPath(tools.sep, path))
  }

  function AbsoluteAll(tools: Tools, paths: seq<string>): (r: seq<string>)
    ensures |r| == |paths|
    ensures forall i :: 0 <= i < |paths| ==> r[i] == Absolute(tools, paths[i])
  {
    seq(|paths|, i requires 0 <= i < |paths| => Absolute(tools, paths[i]))
  }

  /** The minifier applied to files of a kind. */
  function MinifierFor(tools: Tools, ext: Extension): string -> string {
    match ext
    case Js => tools.minifyJs
    case Css => tools.minifyCss
  }

  /** The action for a minify rule. The minifier is chosen by the extension
      of the rule's `from`, whatever kind the rule is listed under; a `from`
      with no kind does nothing. */
  function MinifyFileSettings(tools: Tools, st: State, rule: MinifyRule): (r: State)
    ensures var src, dst := Absolute(tools, rule.source), Absolute(tools, rule.target);
      && (GetExtension(src).None? || src !in st.fs ==> r == st)
      && (src in st.fs && GetExtension(src).Some? ==> r.fs.Keys == st.fs.Keys + {dst})
      && (src in st.fs && src != dst && GetExtension(src).Some? ==>
            r.fs[dst] == MinifierFor(tools, GetExtension(src).value)(st.fs[src]))
      && (src in st.fs && src == dst && GetExtension(src).Some? ==>
            r.fs[dst] == MinifierFor(tools, GetExtension(src).value)(""))
      && (forall k :: k in st.fs && k != dst ==> k in r.fs && r.fs[k] == st.fs[k])
      && (r.errors == st.errors || r.errors == st.errors + [dst])
      && (r.errors != st.errors <==> src in st.fs && GetExtension(src).Some? && tools.ageOf(dst) > StaleAfter)
  {
    var src := Absolute(tools, rule.source);
    var dst := Absolute(tools, rule.target);
    match GetExtension(src)
    case Some(ext) => MinifyFile(MinifierFor(tools, ext), tools.ageOf, st, src, dst)
    case None => st
  }

  /** The action for a merge rule. The minifier is chosen by the extension of
      the rule's `to`; a `to` with no kind does nothing, not even the merge. */
  function MergeMinifyFileSettings(tools: Tools, st: State, rule: MergeRule): (r: Result<State, Crash>)
    ensures var dst, dstMin := Absolute(tools, rule.merged), Absolute(tools, rule.minified);
      var sources := AbsoluteAll(tools, rule.sources);
      && (GetExtension(dst).None? ==> r == Success(st))
      && (GetExtension(dst).Some? ==>
            (r.Success? <==> forall i :: 0 <= i < |sources| ==> sources[i] in st.fs || sources[i] == dst))
      && (r.Failure? ==> r.error.MissingSource?)
      && (r.Success? && GetExtension(dst).Some? ==> r.value.fs.Keys == st.fs.Keys + {dst, dstMin})
      && (r.Success? ==> forall k :: k in st.fs && k != dst && k != dstMin ==> k in r.value.fs && r.value.fs[k] == st.fs[k])
      && (r.Success? && dst != dstMin && GetExtension(dst).Some? ==>
            && ReadAll(st.fs[dst := ""], sources) == Success(r.value.fs[dst])
            && r.value.fs[dstMin] == MinifierFor(tools, GetExtension(dst).value)(r.value.fs[dst]))
      && (r.Success? && dst == dstMin && GetExtension(dst).Some? ==>
            r.value.fs[dst] == MinifierFor(tools, GetExtension(dst).value)(""))
      && (r.Success? ==> r.value.errors == st.errors || r.value.errors == st.errors + [dstMin])
      && (r.Success? ==> (r.value.errors != st.errors <==> GetExtension(dst).Some? && tools.ageOf(dstMin) > StaleAfter))
  {
    var dst := Absolute(tools, rule.merged);
    var dstMin := Absolute(tools, rule.minified);
    match GetExtension(dst)
    case Some(ext) => MergeMinify(MinifierFor(tools, ext), tools.ageOf, st, AbsoluteAll(tools, rule.sources), dst, dstMin)
    case None => Success(st)
  }

  /** The ledger `after` is `before` with entries appended. */
  predicate Extends(before: seq<string>, after: seq<string>) {
    |before| <= |after| && after[..|before|] == before
  }

  lemma ExtendsTransitive(a: seq<string>, b: seq<string>, c: seq<string>)
    requires Extends(a, b) && Extends(b, c)
    ensures Extends(a, c)
  {
    assert c[..|a|] == c[..|b|][..|a|];
  }

  /** A ledger left alone or grown by one entry extends the old one. */
  lemma ExtendsByOne(before: seq<string>, after: seq<string>, x: string)
    requires after == before || after == before + [x]
    ensures Extends(before, after)
  {
    assert (before + [x])[..|before|] == before;
  }

  function RunStep(tools: Tools, st: State, step: Step): (r: Result<State, Crash>)
    ensures r.Failure? ==> r.error.MissingSource?
    ensures r.Success? ==> Extends(st.errors, r.value.errors)
  {
    match step
    case MinifyStep(rule) =>
      var next := MinifyFileSettings(tools, st, rule);
      ExtendsByOne(st.errors, next.errors, Absolute(tools, rule.target));
      Success(next)
    case MergeStep(rule) =>
      var r := MergeMinifyFileSettings(tools, st, rule);
      if r.Success? then
        ExtendsByOne(st.errors, r.value.errors, Absolute(tools, rule.minified));
        r
      else r
  }

  /** The destinations a step may write, in absolute form. */
  function StepWrites(tools: Tools, step: Step): set<string> {
    match step
    case MinifyStep(rule) => {Absolute(tools, rule.target)}
    case MergeStep(rule) => {Absolute(tools, rule.merged), Absolute(tools, rule.minified)}
  }

  predicate Writes(tools: Tools, steps: seq<Step>, k: string) {
    exists i :: 0 <= i < |steps| && k in StepWrites(tools, steps[i])
  }

  /** Runs the steps in order; the first crash ends the run. The ledger only
      grows, and a file no step writes keeps its content. */
  function RunSteps(tools: Tools, st: State, steps: seq<Step>): (r: Result<State, Crash>)
    ensures r.Failure? ==> r.error.MissingSource?
    ensures r.Success? ==> Extends(st.errors, r.value.errors)
    decreases |steps|
  {
    if |steps| == 0 then Success(st)
    else
      match RunStep(tools, st, steps[0])
      case Failure(e) => Failure(e)
      case Success(next) =>
        var r := RunSteps(tools, next, steps[1..]);
        if r.Success? then
          ExtendsTransitive(st.errors, next.errors, r.value.errors);
          r
        else r
  }

  lemma RunStepsSingle(tools: Tools, st: State, step: Step)
    ensures RunSteps(tools, st, [step]) == RunStep(tools, st, step)
  {
    assert [step][1..] == [];
  }

  /** A file no step writes keeps its content. */
  lemma {:induction false} RunStepsFrame(tools: Tools, st: State, steps: seq<Step>, k: string)
    requires k in st.fs && !Writes(tools, steps, k)
    requires RunSteps(tools, st, steps).Success?
    ensures k in RunSteps(tools, st, steps).value.fs && RunSteps(tools, st, steps).value.fs[k] == st.fs[k]
    decreases |steps|
  {
    if |steps| > 0 {
      WritesTail(tools, steps);
      var next := RunStep(tools, st, steps[0]).value;
      assert k !in StepWrites(tools, steps[0]);
      assert k in next.fs && next.fs[k] == st.fs[k];
      RunStepsFrame(tools, next, steps[1..], k);
    }
  }

  /** One action creates no file but the ones it writes. */
  lemma StepCreates(tools: Tools, st: State, step: Step)
    ensures RunStep(tools, st, step).Success? ==>
      RunStep(tools, st, step).value.fs.Keys <= st.fs.Keys + StepWrites(tools, step)
  {
  }

  /** A successful run creates no file that no step writes. */
  lemma {:induction false} RunStepsCreates(tools: Tools, st: State, steps: seq<Step>)
    ensures RunSteps(tools, st, steps).Success? ==>
      forall k :: k in RunSteps(tools, st, steps).value.fs && k !in st.fs ==> Writes(tools, steps, k)
    decreases |steps|
  {
    if |steps| > 0 && RunSteps(tools, st, steps).Success? {
      var next := RunStep(tools, st, steps[0]).value;
      StepCreates(tools, st, steps[0]);
      RunStepsCreates(tools, next, steps[1..]);
      WritesTail(tools, steps);
    }
  }

  lemma WritesTail(tools: Tools, steps: seq<Step>)
    requires |steps| > 0
    ensures forall k :: Writes(tools, steps[1..], k) ==> Writes(tools, steps, k)
    ensures forall k :: k in StepWrites(tools, steps[0]) ==> Writes(tools, steps, k)
  {
    forall k | Writes(tools, steps[1..], k)
      ensures Writes(tools, steps, k)
    {
      var i :| 0 <= i < |steps[1..]| && k in StepWrites(tools, steps[1..][i]);
      assert steps[i + 1] == steps[1..][i];
    }
  }

  /** Running a list in two parts runs the parts one after the other, and a
      crash in the first part skips the second. */
  lemma {:induction false} RunStepsAppend(tools: Tools, st: State, a: seq<Step>, b: seq<Step>)
    ensures RunSteps(tools, st, a + b) ==
      match RunSteps(tools, st, a)
      case Failure(e) => Failure(e)
      case Success(mid) => RunSteps(tools, mid, b)
    decreases |a|
  {
    if |a| > 0 {
      assert (a + b)[0] == a[0];
      assert (a + b)[1..] == a[1..] + b;
      match RunStep(tools, st, a[0])
      case Failure(e) =>
      case Success(next) => RunStepsAppend(tools, next, a[1..], b);
    } else {
      assert a + b == b;
    }
  }

  /** The targets a step rebuilds, as written in the rule. */
  function Targets(step: Step): seq<string> {
    match step
    case MinifyStep(rule) => [rule.target]
    case MergeStep(rule) => [rule.merged, rule.minified]
  }

  function StepTargets(steps: seq<Step>): seq<string> {
    if |steps| == 0 then []
    else StepTargets(steps[..|steps| - 1]) + Targets(steps[|steps| - 1])
  }

  lemma {:induction false} StepTargetsAppend(a: seq<Step>, b: seq<Step>)
    ensures StepTargets(a + b) == StepTargets(a) + StepTargets(b)
  {
    if |b| > 0 {
      StepTargetsAppend(a, b[..|b| - 1]);
      assert (a + b)[..|a + b| - 1] == a + b[..|b| - 1];
    } else {
      assert a + b == a;
    }
  }

  /** What one step writes is the absolute form of one of its targets. */
  lemma StepWritesTarget(tools: Tools, step: Step, k: string) returns (t: string)
    requires k in StepWrites(tools, step)
    ensures t in Targets(step) && Absolute(tools, t) == k
  {
    match step
    case MinifyStep(rule) => t := rule.target;
    case MergeStep(rule) =>
      if k == Absolute(tools, rule.merged) { t := rule.merged; } else { t := rule.minified; }
  }

  lemma WritesFront(tools: Tools, steps: seq<Step>, k: string, i: int)
    requires 0 <= i < |steps| - 1 && k in StepWrites(tools, steps[i])
    ensures Writes(tools, steps[..|steps| - 1], k)
  {
    assert steps[..|steps| - 1][i] == steps[i];
  }

  lemma InTargetsSnoc(steps: seq<Step>, t: string)
    requires |steps| > 0
    requires t in StepTargets(steps[..|steps| - 1]) || t in Targets(steps[|steps| - 1])
    ensures t in StepTargets(steps)
  {
  }

  /** What a step may write is the absolute form of one of its targets. */
  lemma {:induction false} WritesAreTargets(tools: Tools, steps: seq<Step>, k: string) returns (t: string)
    requires Writes(tools, steps, k)
    ensures t in StepTargets(steps) && Absolute(tools, t) == k
  {
    var i :| 0 <= i < |steps| && k in StepWrites(tools, steps[i]);
    if i < |steps| - 1 {
      WritesFront(tools, steps, k, i);
      t := WritesAreTargets(tools, steps[..|steps| - 1], k);
    } else {
      t := StepWritesTarget(tools, steps[i], k);
    }
    InTargetsSnoc(steps, t);
  }

  /** Single-file mode: the minify rules whose `from` is rel, in order. */
  function MinifyFileSteps(rel: string, rules: seq<MinifyRule>): seq<Step> {
    if |rules| == 0 then []
    else
      var last := rules[|rules| - 1];
      MinifyFileSteps(rel, rules[..|rules| - 1]) + (if last.source == rel then [MinifyStep(last)] else [])
  }

  /** Single-file mode: one merge action for each occurrence of rel in a
      rule's `from` list, repeats not collapsed. */
  function OccurrenceSteps(rel: string, rule: MergeRule, sources: seq<string>): seq<Step> {
    if |sources| == 0 then []
    else
      OccurrenceSteps(rel, rule, sources[..|sources| - 1])
        + (if sources[|sources| - 1] == rel then [MergeStep(rule)] else [])
  }

  function MergeFileSteps(rel: string, rules: seq<MergeRule>): seq<Step> {
    if |rules| == 0 then []
    else
      var last := rules[|rules| - 1];
      MergeFileSteps(rel, rules[..|rules| - 1]) + OccurrenceSteps(rel, last, last.sources)
  }

  function FileSteps(rel: string, lists: RuleLists): seq<Step> {
    MinifyFileSteps(rel, lists.minify) + MergeFileSteps(rel, lists.merge)
  }

  lemma {:induction false} MinifyFileStepTargets(rel: string, rules: seq<MinifyRule>)
    ensures StepTargets(MinifyFileSteps(rel, rules)) == MinifyCandidates(rel, rules)
  {
    if |rules| > 0 {
      var front := rules[..|rules| - 1];
      var last := rules[|rules| - 1];
      MinifyFileStepTargets(rel, front);
      StepTargetsAppend(MinifyFileSteps(rel, front), if last.source == rel then [MinifyStep(last)] else []);
      assert StepTargets([MinifyStep(last)]) == [last.target];
    }
  }

  lemma {:induction false} OccurrenceStepTargets(rel: string, rule: MergeRule, sources: seq<string>)
    ensures StepTargets(OccurrenceSteps(rel, rule, sources)) == SourceCandidates(rel, rule, sources)
  {
    if |sources| > 0 {
      var front := sources[..|sources| - 1];
      OccurrenceStepTargets(rel, rule, front);
      StepTargetsAppend(OccurrenceSteps(rel, rule, front), if sources[|sources| - 1] == rel then [MergeStep(rule)] else []);
      assert StepTargets([MergeStep(rule)]) == [rule.merged, rule.minified];
    }
  }

  lemma {:induction false} MergeFileStepTargets(rel: string, rules: seq<MergeRule>)
    ensures StepTargets(MergeFileSteps(rel, rules)) == MergeCandidates(rel, rules)
  {
    if |rules| > 0 {
      var front := rules[..|rules| - 1];
      var last := rules[|rules| - 1];
      MergeFileStepTargets(rel, front);
      OccurrenceStepTargets(rel, last, last.sources);
      StepTargetsAppend(MergeFileSteps(rel, front), OccurrenceSteps(rel, last, last.sources));
    }
  }

  /** The targets single-file mode rebuilds, in order and with repeats, are
      the candidates impact resolution scans; so the set it rebuilds is
      exactly the impact list. */
  lemma FileStepTargets(rel: string, lists: RuleLists)
    ensures StepTargets(FileSteps(rel, lists)) == Candidates(rel, lists)
    ensures forall x :: x in StepTargets(FileSteps(rel, lists)) <==> x in Impacted(rel, lists)
  {
    MinifyFileStepTargets(rel, lists.minify);
    MergeFileStepTargets(rel, lists.merge);
    StepTargetsAppend(MinifyFileSteps(rel, lists.minify), MergeFileSteps(rel, lists.merge));
    DedupMembers(Candidates(rel, lists));
  }

  /** How often rel occurs across the `from` lists of the rules. */
  function TotalOccurrences(rel: string, rules: seq<MergeRule>): nat {
    if |rules| == 0 then 0
    else TotalOccurrences(rel, rules[..|rules| - 1]) + multiset(rules[|rules| - 1].sources)[rel]
  }

  lemma {:induction false} OccurrenceStepCount(rel: string, rule: MergeRule, sources: seq<string>)
    ensures |OccurrenceSteps(rel, rule, sources)| == multiset(sources)[rel]
    ensures forall i :: 0 <= i < |OccurrenceSteps(rel, rule, sources)| ==> OccurrenceSteps(rel, rule, sources)[i] == MergeStep(rule)
  {
    if |sources| > 0 {
      var front := sources[..|sources| - 1];
      OccurrenceStepCount(rel, rule, front);
      assert sources == front + [sources[|sources| - 1]];
      assert multiset(sources) == multiset(front) + multiset{sources[|sources| - 1]};
    }
  }

  /** Single-file mode runs a merge rule's action once per occurrence of the
      path in its `from` list, and runs no other merge action. */
  lemma {:induction false} MergeStepsPerOccurrence(rel: string, rules: seq<MergeRule>)
    ensures |MergeFileSteps(rel, rules)| == TotalOccurrences(rel, rules)
    ensures forall i :: 0 <= i < |MergeFileSteps(rel, rules)| ==>
      MergeFileSteps(rel, rules)[i].MergeStep? && rel in MergeFileSteps(rel, rules)[i].mergeRule.sources
      && MergeFileSteps(rel, rules)[i].mergeRule in rules
  {
    if |rules| > 0 {
      var front := rules[..|rules| - 1];
      var last := rules[|rules| - 1];
      MergeStepsPerOccurrence(rel, front);
      OccurrenceStepCount(rel, last, last.sources);
      var tail := OccurrenceSteps(rel, last, last.sources);
      if |tail| > 0 {
        assert multiset(last.sources)[rel] > 0;
        assert rel in last.sources;
      }
      forall i | 0 <= i < |MergeFileSteps(rel, rules)|
        ensures MergeFileSteps(rel, rules)[i].mergeRule in rules
      {
        if i < |MergeFileSteps(rel, front)| {
          assert MergeFileSteps(rel, front)[i].mergeRule in front;
        }
      }
    }
  }

  /** A successful run changes no file that is not the absolute form of one
      of its steps' targets. */
  lemma StepsTouchOnlyTargets(tools: Tools, st: State, steps: seq<Step>)
    ensures RunSteps(tools, st, steps).Success? ==>
      forall k :: k in st.fs && (forall t :: t in StepTargets(steps) ==> Absolute(tools, t) != k) ==>
        k in RunSteps(tools, st, steps).value.fs && RunSteps(tools, st, steps).value.fs[k] == st.fs[k]
    ensures RunSteps(tools, st, steps).Success? ==>
      forall k :: k in RunSteps(tools, st, steps).value.fs && k !in st.fs ==>
        exists t :: t in StepTargets(steps) && Absolute(tools, t) == k
  {
    if RunSteps(tools, st, steps).Success? {
      RunStepsCreates(tools, st, steps);
      forall k | k in RunSteps(tools, st, steps).value.fs && k !in st.fs
        ensures exists t :: t in StepTargets(steps) && Absolute(tools, t) == k
      {
        var t := WritesAreTargets(tools, steps, k);
      }
      forall k | k in st.fs && (forall t :: t in StepTargets(steps) ==> Absolute(tools, t) != k)
        ensures k in RunSteps(tools, st, steps).value.fs && RunSteps(tools, st, steps).value.fs[k] == st.fs[k]
      {
        if Writes(tools, steps, k) {
          var t := WritesAreTargets(tools, steps, k);
          assert false;
        }
        RunStepsFrame(tools, st, steps, k);
      }
    }
  }

  /** Single-file mode for a path of kind `ext`: the path is made relative,
      then every matching minify rule and every matching merge occurrence is
      run, minify rules first. It only appends to the ledger, aborts only on
      a missing merge source, and neither changes nor creates any file but
      the absolute forms of the targets in the path's impact list. */
  function ManageMinifyFileProject(tools: Tools, st: State, p: string, ext: Extension, config: Config): (r: Result<State, Crash>)
    requires tools.sep == '/' ==> |p| > 0
    ensures r.Failure? ==> r.error.MissingSource?
    ensures r.Success? ==> Extends(st.errors, r.value.errors)
    ensures var impacted := Impacted(RelativePath(tools.sep, tools.base, p), RulesFor(config, ext));
      r.Success? ==>
        forall k :: k in st.fs && (forall t :: t in impacted ==> Absolute(tools, t) != k) ==>
          k in r.value.fs && r.value.fs[k] == st.fs[k]
    ensures var impacted := Impacted(RelativePath(tools.sep, tools.base, p), RulesFor(config, ext));
      r.Success? ==>
        forall k :: k in r.value.fs && k !in st.fs ==> exists t :: t in impacted && Absolute(tools, t) == k
  {
    var rel := RelativePath(tools.sep, tools.base, p);
    var lists := RulesFor(config, ext);
    FileStepTargets(rel, lists);
    StepsTouchOnlyTargets(tools, st, FileSteps(rel, lists));
    RunSteps(tools, st, FileSteps(rel, lists))
  }

  /** Whole-project mode: all minify rules of a kind, then all its merge
      rules, each in list order. */
  function RuleSteps(lists: RuleLists): seq<Step> {
    MinifySteps(lists.minify) + MergeSteps(lists.merge)
  }

  function KindSteps(config: Config, kinds: seq<Extension>): seq<Step> {
    if |kinds| == 0 then []
    else KindSteps(config, kinds[..|kinds| - 1]) + RuleSteps(RulesFor(config, kinds[|kinds| - 1]))
  }

  /** The kinds in the order whole-project mode visits them. */
  const Kinds: seq<Extension> := [Js, Css]

  /** Reference order of whole-project mode: JavaScript rules, then CSS. */
  function ProjectSteps(config: Config): seq<Step> {
    KindSteps(config, Kinds)
  }

  function CountMinify(steps: seq<Step>): nat {
    if |steps| == 0 then 0
    else CountMinify(steps[..|steps| - 1]) + (if steps[|steps| - 1].MinifyStep? then 1 else 0)
  }

  function CountMerge(steps: seq<Step>): nat {
    if |steps| == 0 then 0
    else CountMerge(steps[..|steps| - 1]) + (if steps[|steps| - 1].MergeStep? then 1 else 0)
  }

  lemma {:induction false} CountAppend(a: seq<Step>, b: seq<Step>)
    ensures CountMinify(a + b) == CountMinify(a) + CountMinify(b)
    ensures CountMerge(a + b) == CountMerge(a) + CountMerge(b)
  {
    if |b| > 0 {
      CountAppend(a, b[..|b| - 1]);
      assert (a + b)[..|a + b| - 1] == a + b[..|b| - 1];
    } else {
      assert a + b == a;
    }
  }

  lemma {:induction false} CountUniform(steps: seq<Step>)
    ensures (forall i :: 0 <= i < |steps| ==> steps[i].MinifyStep?) ==> CountMinify(steps) == |steps| && CountMerge(steps) == 0
    ensures (forall i :: 0 <= i < |steps| ==> steps[i].MergeStep?) ==> CountMerge(steps) == |steps| && CountMinify(steps) == 0
  {
    if |steps| > 0 {
      CountUniform(steps[..|steps| - 1]);
    }
  }

  lemma RuleStepCounts(lists: RuleLists)
    ensures CountMinify(RuleSteps(lists)) == |lists.minify|
    ensures CountMerge(RuleSteps(lists)) == |lists.merge|
  {
    var a := MinifySteps(lists.minify);
    var b := MergeSteps(lists.merge);
    CountUniform(a);
    CountUniform(b);
    CountAppend(a, b);
  }

  /** The reference order is the JavaScript rules followed by the CSS rules. */
  lemma ProjectStepsByKind(config: Config)
    ensures ProjectSteps(config) == RuleSteps(RulesFor(config, Js)) + RuleSteps(RulesFor(config, Css))
  {
    assert Kinds[..1] == [Js];
    assert [Js][..0] == [];
    assert KindSteps(config, [Js]) == [] + RuleSteps(RulesFor(config, Js));
  }

  /** Whole-project mode runs one minify action per minify rule and one
      merge action per merge rule, over both kinds. */
  lemma ProjectStepCounts(config: Config)
    ensures CountMinify(ProjectSteps(config)) == |RulesFor(config, Js).minify| + |RulesFor(config, Css).minify|
    ensures CountMerge(ProjectSteps(config)) == |RulesFor(config, Js).merge| + |RulesFor(config, Css).merge|
    ensures |ProjectSteps(config)| == CountMinify(ProjectSteps(config)) + CountMerge(ProjectSteps(config))
  {
    var js := RuleSteps(RulesFor(config, Js));
    var css := RuleSteps(RulesFor(config, Css));
    ProjectStepsByKind(config);
    RuleStepCounts(RulesFor(config, Js));
    RuleStepCounts(RulesFor(config, Css));
    CountAppend(js, css);
    CountTotal(ProjectSteps(config));
  }

  lemma {:induction false} CountTotal(steps: seq<Step>)
    ensures |steps| == CountMinify(steps) + CountMerge(steps)
  {
    if |steps| > 0 {
      CountTotal(steps[..|steps| - 1]);
    }
  }

  function MinifySteps(rules: seq<MinifyRule>): seq<Step> {
    seq(|rules|, i requires 0 <= i < |rules| => MinifyStep(rules[i]))
  }

  function MergeSteps(rules: seq<MergeRule>): seq<Step> {
    seq(|rules|, i requires 0 <= i < |rules| => MergeStep(rules[i]))
  }

  lemma MinifyStepsSnoc(rules: seq<MinifyRule>, i: nat)
    requires i < |rules|
    ensures MinifySteps(rules[..i + 1]) == MinifySteps(rules[..i]) + [MinifyStep(rules[i])]
  {
  }

  lemma MergeStepsSnoc(rules: seq<MergeRule>, j: nat)
    requires j < |rules|
    ensures MergeSteps(rules[..j + 1]) == MergeSteps(rules[..j]) + [MergeStep(rules[j])]
  {
  }

  lemma MergeStepsSplit(rules: seq<MergeRule>, j: nat)
    requires j < |rules|
    ensures MergeSteps(rules[..j]) + [MergeStep(rules[j])] + MergeSteps(rules[j + 1..]) == MergeSteps(rules)
  {
  }

  /** The minify rules of one kind, in list order; they never crash. */
  method RunMinifyRules(tools: Tools, st0: State, rules: seq<MinifyRule>) returns (st: State)
    ensures RunSteps(tools, st0, MinifySteps(rules)) == Success(st)
  {
    st := st0;
    var i := 0;
    while i < |rules|
      invariant 0 <= i <= |rules|
      invariant RunSteps(tools, st0, MinifySteps(rules[..i])) == Success(st)
    {
      var step := MinifyStep(rules[i]);
      RunStepsAppend(tools, st0, MinifySteps(rules[..i]), [step]);
      MinifyStepsSnoc(rules, i);
      RunStepsSingle(tools, st, step);
      st := MinifyFileSettings(tools, st, rules[i]);
      i := i + 1;
    }
    assert rules[..i] == rules;
  }

  /** One more merge rule after a successful prefix: the run of the longer
      prefix is the step's result. */
  lemma MergeRulesStep(tools: Tools, st0: State, rules: seq<MergeRule>, j: nat)
    requires j < |rules|
    ensures var done := RunSteps(tools, st0, MergeSteps(rules[..j]));
      done.Success? ==>
        RunSteps(tools, st0, MergeSteps(rules[..j + 1])) == RunStep(tools, done.value, MergeStep(rules[j]))
  {
    RunStepsAppend(tools, st0, MergeSteps(rules[..j]), [MergeStep(rules[j])]);
    MergeStepsSnoc(rules, j);
    var done := RunSteps(tools, st0, MergeSteps(rules[..j]));
    if done.Success? {
      RunStepsSingle(tools, done.value, MergeStep(rules[j]));
    }
  }

  /** A crash in a merge rule ends the run of the whole list with that crash. */
  lemma MergeRulesCrash(tools: Tools, st0: State, rules: seq<MergeRule>, j: nat)
    requires j < |rules|
    ensures var done := RunSteps(tools, st0, MergeSteps(rules[..j]));
      done.Success? && RunStep(tools, done.value, MergeStep(rules[j])).Failure? ==>
        RunSteps(tools, st0, MergeSteps(rules)) == RunStep(tools, done.value, MergeStep(rules[j]))
  {
    MergeRulesStep(tools, st0, rules, j);
    RunStepsAppend(tools, st0, MergeSteps(rules[..j + 1]), MergeSteps(rules[j + 1..]));
    MergeStepsSnoc(rules, j);
    MergeStepsSplit(rules, j);
  }

  /** The merge rules of one kind, in list order; a crash returns at once. */
  method RunMergeRules(tools: Tools, st0: State, rules: seq<MergeRule>) returns (r: Result<State, Crash>)
    ensures r == RunSteps(tools, st0, MergeSteps(rules))
  {
    var st := st0;
    var j := 0;
    while j < |rules|
      invariant 0 <= j <= |rules|
      invariant RunSteps(tools, st0, MergeSteps(rules[..j])) == Success(st)
    {
      var next := RunStep(tools, st, MergeStep(rules[j]));
      if next.Failure? {
        MergeRulesCrash(tools, st0, rules, j);
        return next;
      }
      MergeRulesStep(tools, st0, rules, j);
      st := next.value;
      j := j + 1;
    }
    assert rules[..j] == rules;
    r := Success(st);
  }

  /** One kind's rules in whole-project order: minify rules, then merge rules. */
  method RunRules(tools: Tools, st0: State, lists: RuleLists) returns (r: Result<State, Crash>)
    ensures r == RunSteps(tools, st0, RuleSteps(lists))
  {
    var st := RunMinifyRules(tools, st0, lists.minify);
    r := RunMergeRules(tools, st, lists.merge);
    RunStepsAppend(tools, st0, MinifySteps(lists.minify), MergeSteps(lists.merge));
  }

  /** Whole-project mode: for JavaScript and then CSS, every minify rule and
      then every merge rule. */
  method ManageAllFiles(tools: Tools, st0: State, config: Config) returns (r: Result<State, Crash>)
    ensures r == RunSteps(tools, st0, ProjectSteps(config))
  {
    var st := st0;
    var n := 0;
    while n < |Kinds|
      invariant 0 <= n <= |Kinds|
      invariant RunSteps(tools, st0, KindSteps(config, Kinds[..n])) == Success(st)
    {
      var done := KindSteps(config, Kinds[..n]);
      var these := RuleSteps(RulesFor(config, Kinds[n]));
      assert Kinds[..n + 1][..n] == Kinds[..n];
      assert KindSteps(config, Kinds[..n + 1]) == done + these;
      RunStepsAppend(tools, st0, done, these);
      var next := RunRules(tools, st, RulesFor(config, Kinds[n]));
      if next.Failure? {
        RunStepsAppend(tools, st0, done + these, KindSteps(config, Kinds)[|done + these|..]);
        KindStepsPrefix(config, n + 1);
        return next;
      }
      st := next.value;
      n := n + 1;
    }
    assert Kinds[..n] == Kinds;
    r := Success(st);
  }

  lemma KindStepsPrefix(config: Config, n: nat)
    requires n <= |Kinds|
    ensures |KindSteps(config, Kinds[..n])| <= |KindSteps(config, Kinds)|
    ensures KindSteps(config, Kinds) == KindSteps(config, Kinds[..n]) + KindSteps(config, Kinds)[|KindSteps(config, Kinds[..n])|..]
  {
    assert Kinds[..2] == Kinds;
    assert Kinds[..1][..0] == Kinds[..0];
    assert Kinds[..2][..1] == Kinds[..1];
  }
}

=== FILE: impact.dfy ===
/** Impact resolution: which build targets a changed source path affects.
    The result lists every `to` of a minify rule whose `from` is the path and
    the `to` and `to_min` of every merge rule whose `from` list holds it,
    each once, in the order in which they are first met. */
module Impact {
  import opened Wrappers
  import opened Paths
  import opened Settings

  predicate NoDuplicates<T(==)>(s: seq<T>) {
    forall i, j :: 0 <= i < j < |s| ==> s[i] != s[j]
  }

  /** Appends x unless it is already present. */
  function AddNew<T(==)>(acc: seq<T>, x: T): seq<T> {
    if x in acc then acc else acc + [x]
  }

  /** s with every repeat dropped, keeping first occurrences in place. */
  function Dedup<T(==)>(s: seq<T>): seq<T> {
    if |s| == 0 then [] else AddNew(Dedup(s[..|s| - 1]), s[|s| - 1])
  }

  lemma DedupAppend<T>(s: seq<T>, x: T)
    ensures Dedup(s + [x]) == AddNew(Dedup(s), x)
  {
    assert (s + [x])[..|s|] == s;
  }

  lemma {:induction false} DedupMembers<T>(s: seq<T>)
    ensures forall x :: x in Dedup(s) <==> x in s
  {
    if |s| > 0 {
      DedupMembers(s[..|s| - 1]);
      assert s == s[..|s| - 1] + [s[|s| - 1]];
    }
  }

  lemma {:induction false} DedupNoDuplicates<T>(s: seq<T>)
    ensures NoDuplicates(Dedup(s))
  {
    if |s| > 0 {
      DedupNoDuplicates(s[..|s| - 1]);
    }
  }

  /** An element placed earlier in Dedup(s) was met in s before any
      occurrence of an element placed later. */
  lemma {:induction false} DedupFirstSeen<T>(s: seq<T>)
    ensures forall i, j, k :: 0 <= i < j < |Dedup(s)| && 0 <= k < |s| && s[k] == Dedup(s)[j] ==> Dedup(s)[i] in s[..k]
  {
    if |s| > 0 {
      var t := s[..|s| - 1];
      var x := s[|s| - 1];
      DedupFirstSeen(t);
      DedupMembers(t);
      var d := Dedup(t);
      var r := Dedup(s);
      assert r == AddNew(d, x);
      forall i, j, k | 0 <= i < j < |r| && 0 <= k < |s| && s[k] == r[j]
        ensures r[i] in s[..k]
      {
        if k == |t| {
          assert s[..k] == t;
          assert r[i] == d[i];
          assert d[i] in d;
        } else if j < |d| {
          assert s[..k] == t[..k];
          assert t[k] == s[k];
        } else {
          assert false;
        }
      }
    }
  }

  /** Every element of Dedup(a + b) that occurs in a comes before every
      element that occurs only in b. */
  lemma DedupPrefixFirst<T>(a: seq<T>, b: seq<T>)
    ensures forall i, j :: 0 <= i < j < |Dedup(a + b)| && Dedup(a + b)[j] in a ==> Dedup(a + b)[i] in a
  {
    var s := a + b;
    var r := Dedup(s);
    DedupFirstSeen(s);
    forall i, j | 0 <= i < j < |r| && r[j] in a
      ensures r[i] in a
    {
      var k :| 0 <= k < |a| && a[k] == r[j];
      assert s[k] == r[j];
      assert s[..k] == a[..k];
    }
  }

  /** Targets met through the minify rules, one per rule whose `from` is rel. */
  function MinifyCandidates(rel: string, rules: seq<MinifyRule>): seq<string> {
    if |rules| == 0 then []
    else
      var last := rules[|rules| - 1];
      MinifyCandidates(rel, rules[..|rules| - 1]) + (if last.source == rel then [last.target] else [])
  }

  /** Targets met through one merge rule: its `to` and `to_min` for each
      occurrence of rel among the given sources. */
  function SourceCandidates(rel: string, rule: MergeRule, sources: seq<string>): seq<string> {
    if |sources| == 0 then []
    else
      SourceCandidates(rel, rule, sources[..|sources| - 1])
        + (if sources[|sources| - 1] == rel then [rule.merged, rule.minified] else [])
  }

  function MergeCandidates(rel: string, rules: seq<MergeRule>): seq<string> {
    if |rules| == 0 then []
    else
      var last := rules[|rules| - 1];
      MergeCandidates(rel, rules[..|rules| - 1]) + SourceCandidates(rel, last, last.sources)
  }

  /** Every target met while scanning the rules, repeats included, in scan
      order: the minify rules first, then the merge rules. */
  function Candidates(rel: string, lists: RuleLists): seq<string> {
    MinifyCandidates(rel, lists.minify) + MergeCandidates(rel, lists.merge)
  }

  /** The impact list of a path already in relative form. */
  function Impacted(rel: string, lists: RuleLists): seq<string> {
    Dedup(Candidates(rel, lists))
  }

  /** x is the `to` of a minify rule whose `from` is rel. */
  predicate MinifyTarget(rel: string, rules: seq<MinifyRule>, x: string) {
    exists i :: 0 <= i < |rules| && rules[i] == MinifyRule(rel, x)
  }

  /** x is the `to` or `to_min` of a merge rule whose `from` list holds rel. */
  predicate MergeTarget(rel: string, rules: seq<MergeRule>, x: string) {
    exists j :: 0 <= j < |rules| && rel in rules[j].sources && (rules[j].merged == x || rules[j].minified == x)
  }

  /** rel impacts x through one of the two kinds of rule. */
  predicate Impacts(rel: string, lists: RuleLists, x: string) {
    MinifyTarget(rel, lists.minify, x) || MergeTarget(rel, lists.merge, x)
  }

  lemma {:induction false} MinifyCandidatesMembers(rel: string, rules: seq<MinifyRule>)
    ensures forall x :: x in MinifyCandidates(rel, rules) <==> MinifyTarget(rel, rules, x)
  {
    if |rules| > 0 {
      var front := rules[..|rules| - 1];
      MinifyCandidatesMembers(rel, front);
      forall x | MinifyTarget(rel, rules, x)
        ensures x in MinifyCandidates(rel, rules)
      {
        var i :| 0 <= i < |rules| && rules[i] == MinifyRule(rel, x);
        if i < |front| {
          assert front[i] == rules[i];
        }
      }
      forall x | x in MinifyCandidates(rel, rules)
        ensures MinifyTarget(rel, rules, x)
      {
        if x in MinifyCandidates(rel, front) {
          var i :| 0 <= i < |front| && front[i] == MinifyRule(rel, x);
          assert rules[i] == front[i];
        } else {
          assert rules[|rules| - 1] == MinifyRule(rel, x);
        }
      }
    }
  }

  lemma {:induction false} SourceCandidatesMembers(rel: string, rule: MergeRule, sources: seq<string>)
    ensures forall x :: x in SourceCandidates(rel, rule, sources) <==> rel in sources && (x == rule.merged || x == rule.minified)
  {
    if |sources| > 0 {
      SourceCandidatesMembers(rel, rule, sources[..|sources| - 1]);
      assert sources == sources[..|sources| - 1] + [sources[|sources| - 1]];
    }
  }

  lemma {:induction false} MergeCandidatesMembers(rel: string, rules: seq<MergeRule>)
    ensures forall x :: x in MergeCandidates(rel, rules) <==> MergeTarget(rel, rules, x)
  {
    if |rules| > 0 {
      var front := rules[..|rules| - 1];
      var last := rules[|rules| - 1];
      MergeCandidatesMembers(rel, front);
      SourceCandidatesMembers(rel, last, last.sources);
      forall x | MergeTarget(rel, rules, x)
        ensures x in MergeCandidates(rel, rules)
      {
        var j :| 0 <= j < |rules| && rel in rules[j].sources && (rules[j].merged == x || rules[j].minified == x);
        if j < |front| {
          assert front[j] == rules[j];
        }
      }
      forall x | x in MergeCandidates(rel, rules)
        ensures MergeTarget(rel, rules, x)
      {
        if x in MergeCandidates(rel, front) {
          var j :| 0 <= j < |front| && rel in front[j].sources && (front[j].merged == x || front[j].minified == x);
          assert rules[j] == front[j];
        } else {
          assert rules[|rules| - 1] == last;
        }
      }
    }
  }

  /** The impact list holds no target twice. */
  lemma ImpactedNoDuplicates(rel: string, lists: RuleLists)
    ensures NoDuplicates(Impacted(rel, lists))
  {
    DedupNoDuplicates(Candidates(rel, lists));
  }

  /** The impact list holds exactly the targets rel reaches through a rule. */
  lemma ImpactedMembers(rel: string, lists: RuleLists)
    ensures forall x :: x in Impacted(rel, lists) <==> Impacts(rel, lists, x)
  {
    DedupMembers(Candidates(rel, lists));
    MinifyCandidatesMembers(rel, lists.minify);
    MergeCandidatesMembers(rel, lists.merge);
  }

  /** Targets appear in the order in which the rule scan first meets them. */
  lemma ImpactedFirstSeen(rel: string, lists: RuleLists)
    ensures var c := Candidates(rel, lists); var r := Impacted(rel, lists);
      forall i, j, k :: 0 <= i < j < |r| && 0 <= k < |c| && c[k] == r[j] ==> r[i] in c[..k]
  {
    DedupFirstSeen(Candidates(rel, lists));
  }

  /** Minify targets come first: an entry reached through a minify rule is
      preceded only by entries reached through minify rules. */
  lemma ImpactedMinifyFirst(rel: string, lists: RuleLists)
    ensures var r := Impacted(rel, lists);
      forall i, j :: 0 <= i < j < |r| && MinifyTarget(rel, lists.minify, r[j]) ==> MinifyTarget(rel, lists.minify, r[i])
  {
    var a := MinifyCandidates(rel, lists.minify);
    DedupPrefixFirst(a, MergeCandidates(rel, lists.merge));
    MinifyCandidatesMembers(rel, lists.minify);
  }

  lemma {:induction false} SourceCandidatesAppend(rel: string, rule: MergeRule, a: seq<string>, b: seq<string>)
    ensures SourceCandidates(rel, rule, a + b) == SourceCandidates(rel, rule, a) + SourceCandidates(rel, rule, b)
  {
    if |b| > 0 {
      var front := b[..|b| - 1];
      SourceCandidatesAppend(rel, rule, a, front);
      assert (a + b)[..|a + b| - 1] == a + front;
    } else {
      assert a + b == a;
    }
  }

  lemma {:induction false} MergeCandidatesAppend(rel: string, a: seq<MergeRule>, b: seq<MergeRule>)
    ensures MergeCandidates(rel, a + b) == MergeCandidates(rel, a) + MergeCandidates(rel, b)
  {
    if |b| > 0 {
      var front := b[..|b| - 1];
      MergeCandidatesAppend(rel, a, front);
      assert (a + b)[..|a + b| - 1] == a + front;
    } else {
      assert a + b == a;
    }
  }

  /** x and y both occur in r, x at an earlier position than y. */
  predicate ListedBefore<T(==)>(r: seq<T>, x: T, y: T) {
    exists a, b :: 0 <= a < b < |r| && r[a] == x && r[b] == y
  }

  /** When x and y are first met side by side, x is listed before y. */
  lemma DedupPairOrder<T>(pre: seq<T>, x: T, y: T, post: seq<T>)
    requires x != y && x !in pre && y !in pre
    ensures ListedBefore(Dedup(pre + [x, y] + post), x, y)
  {
    var c := pre + [x, y] + post;
    var r := Dedup(c);
    DedupMembers(c);
    DedupFirstSeen(c);
    assert c[|pre|] == x && c[|pre| + 1] == y;
    assert x in r && y in r;
    var a :| 0 <= a < |r| && r[a] == x;
    var b :| 0 <= b < |r| && r[b] == y;
    assert c[..|pre|] == pre;
    if b < a {
      assert false;
    }
    assert a != b;
    assert 0 <= a < b < |r| && r[a] == x && r[b] == y;
  }

  lemma {:induction false} SourceCandidatesAbsent(rel: string, rule: MergeRule, sources: seq<string>)
    requires rel !in sources
    ensures SourceCandidates(rel, rule, sources) == []
  {
    if |sources| > 0 {
      SourceCandidatesAbsent(rel, rule, sources[..|sources| - 1]);
    }
  }

  /** A merge rule's candidates begin with its `to` and `to_min` once rel
      is among the sources scanned. */
  lemma {:induction false} SourceCandidatesStart(rel: string, rule: MergeRule, sources: seq<string>)
    requires rel in sources
    ensures exists tail :: SourceCandidates(rel, rule, sources) == [rule.merged, rule.minified] + tail
  {
    var front := sources[..|sources| - 1];
    var extra := if sources[|sources| - 1] == rel then [rule.merged, rule.minified] else [];
    assert SourceCandidates(rel, rule, sources) == SourceCandidates(rel, rule, front) + extra;
    if rel in front {
      SourceCandidatesStart(rel, rule, front);
      var tail :| SourceCandidates(rel, rule, front) == [rule.merged, rule.minified] + tail;
      assert SourceCandidates(rel, rule, sources) == [rule.merged, rule.minified] + (tail + extra);
    } else {
      assert sources == front + [sources[|sources| - 1]];
      SourceCandidatesAbsent(rel, rule, front);
      assert SourceCandidates(rel, rule, sources) == [rule.merged, rule.minified] + [];
    }
  }

  /** The scan splits around merge rule j: what comes before it, its own
      candidates, and what comes after. */
  lemma CandidatesSplit(rel: string, lists: RuleLists, j: nat)
    requires j < |lists.merge|
    ensures Candidates(rel, lists)
      == Candidates(rel, RuleLists(lists.minify, lists.merge[..j]))
         + SourceCandidates(rel, lists.merge[j], lists.merge[j].sources)
         + MergeCandidates(rel, lists.merge[j + 1..])
  {
    var rule := lists.merge[j];
    assert lists.merge == lists.merge[..j] + [rule] + lists.merge[j + 1..];
    MergeCandidatesAppend(rel, lists.merge[..j] + [rule], lists.merge[j + 1..]);
    MergeCandidatesAppend(rel, lists.merge[..j], [rule]);
    assert MergeCandidates(rel, [rule]) == SourceCandidates(rel, rule, rule.sources);
  }

  /** A merge rule's `to` is listed before its `to_min` unless one of them was
      already reached through an earlier rule. */
  lemma MergedBeforeMinified(rel: string, lists: RuleLists, j: nat)
    requires j < |lists.merge| && rel in lists.merge[j].sources
    requires lists.merge[j].merged != lists.merge[j].minified
    requires !Impacts(rel, RuleLists(lists.minify, lists.merge[..j]), lists.merge[j].merged)
    requires !Impacts(rel, RuleLists(lists.minify, lists.merge[..j]), lists.merge[j].minified)
    ensures ListedBefore(Impacted(rel, lists), lists.merge[j].merged, lists.merge[j].minified)
  {
    var rule := lists.merge[j];
    var earlier := RuleLists(lists.minify, lists.merge[..j]);
    var pre := Candidates(rel, earlier);
    SourceCandidatesStart(rel, rule, rule.sources);
    var tail :| SourceCandidates(rel, rule, rule.sources) == [rule.merged, rule.minified] + tail;
    CandidatesSplit(rel, lists, j);
    var post := tail + MergeCandidates(rel, lists.merge[j + 1..]);
    assert Candidates(rel, lists) == pre + [rule.merged, rule.minified] + post;
    MinifyCandidatesMembers(rel, earlier.minify);
    MergeCandidatesMembers(rel, earlier.merge);
    assert rule.merged !in pre && rule.minified !in pre;
    DedupPairOrder(pre, rule.merged, rule.minified, post);
  }

  /** The settings used: those given when truthy, otherwise the ones read
      from the settings file. */
  function EffectiveSettings(given: Option<Config>, onDisk: Option<Config>): Option<Config> {
    if Truthy(given) then given else onDisk
  }

  /** Reference definition of the impact list of a changed path. */
  function ImpactSet(sep: char, base: string, p: string, given: Option<Config>, onDisk: Option<Config>): seq<string> {
    var settings := EffectiveSettings(given, onDisk);
    var ext := GetExtension(p);
    if Truthy(settings) && ext.Some? then
      Impacted(RelativePath(sep, base, p), RulesFor(settings.value, ext.value))
    else []
  }

  /** The minify-rule scan: each matching rule's `to` is appended unless
      already listed. */
  method ScanMinifyRules(rel: string, rules: seq<MinifyRule>) returns (impacted: seq<string>)
    ensures impacted == Dedup(MinifyCandidates(rel, rules))
  {
    impacted := [];
    var i := 0;
    while i < |rules|
      invariant 0 <= i <= |rules|
      invariant impacted == Dedup(MinifyCandidates(rel, rules[..i]))
    {
      var rule := rules[i];
      assert rules[..i + 1][..i] == rules[..i];
      assert MinifyCandidates(rel, rules[..i + 1])
        == MinifyCandidates(rel, rules[..i]) + (if rule.source == rel then [rule.target] else []);
      if rule.source == rel {
        DedupAppend(MinifyCandidates(rel, rules[..i]), rule.target);
        if rule.target !in impacted {
          impacted := impacted + [rule.target];
        }
        assert impacted == Dedup(MinifyCandidates(rel, rules[..i]) + [rule.target]);
      } else {
        assert MinifyCandidates(rel, rules[..i + 1]) == MinifyCandidates(rel, rules[..i]);
      }
      assert impacted == Dedup(MinifyCandidates(rel, rules[..i + 1]));
      i := i + 1;
    }
    assert rules[..i] == rules;
  }

  /** Scanning one more entry of a `from` list adds both targets when the
      entry is rel and nothing otherwise. */
  lemma SourceCandidatesStep(rel: string, rule: MergeRule, seen: seq<string>, k: nat)
    requires k < |rule.sources|
    ensures seen + SourceCandidates(rel, rule, rule.sources[..k + 1])
      == seen + SourceCandidates(rel, rule, rule.sources[..k])
         + (if rule.sources[k] == rel then [rule.merged, rule.minified] else [])
  {
    assert rule.sources[..k + 1][..k] == rule.sources[..k];
  }

  /** Appends `to` and then `to_min`, each unless already listed. */
  method AddTargets(impacted: seq<string>, ghost now: seq<string>, merged: string, minified: string)
    returns (r: seq<string>)
    requires impacted == Dedup(now)
    ensures r == Dedup(now + [merged, minified])
  {
    DedupAppend(now, merged);
    DedupAppend(now + [merged], minified);
    assert now + [merged] + [minified] == now + [merged, minified];
    r := impacted;
    if merged !in r {
      r := r + [merged];
    }
    if minified !in r {
      r := r + [minified];
    }
  }

  /** One merge rule's scan of its `from` list: each occurrence of rel
      appends `to` and then `to_min`, each unless already listed. */
  method ScanSources(rel: string, rule: MergeRule, acc: seq<string>, ghost seen: seq<string>)
    returns (impacted: seq<string>)
    requires acc == Dedup(seen)
    ensures impacted == Dedup(seen + SourceCandidates(rel, rule, rule.sources))
  {
    impacted := acc;
    var k := 0;
    assert seen + SourceCandidates(rel, rule, rule.sources[..k]) == seen;
    while k < |rule.sources|
      invariant 0 <= k <= |rule.sources|
      invariant impacted == Dedup(seen + SourceCandidates(rel, rule, rule.sources[..k]))
    {
      ghost var now := seen + SourceCandidates(rel, rule, rule.sources[..k]);
      SourceCandidatesStep(rel, rule, seen, k);
      if rule.sources[k] == rel {
        impacted := AddTargets(impacted, now, rule.merged, rule.minified);
      } else {
        assert now + [] == now;
      }
      k := k + 1;
    }
    assert rule.sources[..k] == rule.sources;
  }

  /** The merge-rule scan, continuing the list built so far. */
  method ScanMergeRules(rel: string, rules: seq<MergeRule>, acc: seq<string>, ghost seen: seq<string>)
    returns (impacted: seq<string>)
    requires acc == Dedup(seen)
    ensures impacted == Dedup(seen + MergeCandidates(rel, rules))
  {
    impacted := acc;
    var j := 0;
    assert seen + MergeCandidates(rel, rules[..j]) == seen;
    while j < |rules|
      invariant 0 <= j <= |rules|
      invariant impacted == Dedup(seen + MergeCandidates(rel, rules[..j]))
    {
      assert rules[..j + 1][..j] == rules[..j];
      assert MergeCandidates(rel, rules[..j + 1]) == MergeCandidates(rel, rules[..j]) + SourceCandidates(rel, rules[j], rules[j].sources);
      impacted := ScanSources(rel, rules[j], impacted, seen + MergeCandidates(rel, rules[..j]));
      assert seen + MergeCandidates(rel, rules[..j + 1])
        == seen + MergeCandidates(rel, rules[..j]) + SourceCandidates(rel, rules[j], rules[j].sources);
      j := j + 1;
    }
    assert rules[..j] == rules;
  }

  /** The targets a changed path affects, computed by scanning the rules and
      appending each target not yet listed. */
  method ImpactedFiles(sep: char, base: string, p: string, given: Option<Config>, onDisk: Option<Config>)
    returns (impacted: seq<string>)
    ensures impacted == ImpactSet(sep, base, p, given, onDisk)
    ensures GetExtension(p).None? ==> impacted == []
    ensures !Truthy(given) && !Truthy(onDisk) ==> impacted == []
  {
    impacted := [];
    var settings := if Truthy(given) then given else onDisk;
    var ext := GetExtension(p);
    if Truthy(settings) && ext.Some? {
      var rel := RelativePath(sep, base, p);
      var rules := RulesFor(settings.value, ext.value);
      impacted := ScanMinifyRules(rel, rules.minify);
      impacted := ScanMergeRules(rel, rules.merge, impacted, MinifyCandidates(rel, rules.minify));
    }
  }
}

=== FILE: paths.dfy ===
/** Path strings as the build tool handles them: the extension that decides a
    file's asset kind, the rewrite between the two separator conventions, and
    the project-relative form that rule entries are written in. */
module Paths {
  import opened Wrappers

  /** The two asset kinds. A path has one exactly when its suffix, ignoring
      case, is ".js" or ".css". */
  datatype Extension = Js | Css {

    /** The suffix reported for the kind, dot included. */
    function Suffix(): (s: string)
      ensures |s| >= 3 && s[0] == '.'
    {
      match this
      case Js => ".js"
      case Css => ".css"
    }

    /** The key under which the settings hold this kind's rules: the suffix
        without its leading dot. */
    function Key(): (k: string)
      ensures k == Suffix()[1..]
    {
      match this
      case Js => "js"
      case Css => "css"
    }
  }

  /** Lower-casing of one character (ASCII letters only). */
  function LowerChar(c: char): char {
    if 'A' <= c <= 'Z' then (c as int + 32) as char else c
  }

  function Lower(s: string): (r: string)
    ensures |r| == |s|
    ensures forall i :: 0 <= i < |s| ==> r[i] == LowerChar(s[i])
  {
    seq(|s|, i requires 0 <= i < |s| => LowerChar(s[i]))
  }

  predicate EndsWith(s: string, suffix: string) {
    |suffix| <= |s| && s[|s| - |suffix|..] == suffix
  }

  predicate OccursAt(s: string, sub: string, i: int) {
    0 <= i && i + |sub| <= |s| && s[i..i + |sub|] == sub
  }

  /** Substring test, `sub in s` on strings. */
  predicate Contains(s: string, sub: string) {
    exists i :: 0 <= i <= |s| - |sub| && OccursAt(s, sub, i)
  }

  /** The asset kind of a path, decided on its lower-cased suffix. */
  function GetExtension(p: string): (r: Option<Extension>)
    ensures r == Some(Js) <==> EndsWith(Lower(p), ".js")
    ensures r == Some(Css) <==> EndsWith(Lower(p), ".css")
    ensures r.Some? ==> EndsWith(Lower(p), r.value.Suffix()) && |p| >= 3
  {
    var l := Lower(p);
    SuffixesExclusive(l);
    if EndsWith(l, ".js") then Some(Js)
    else if EndsWith(l, ".css") then Some(Css)
    else None
  }

  /** No string ends in both ".js" and ".css". */
  lemma SuffixesExclusive(l: string)
    ensures !(EndsWith(l, ".js") && EndsWith(l, ".css"))
  {
    if EndsWith(l, ".js") && |l| >= 4 {
      assert l[|l| - 3] == '.';
      assert l[|l| - 4..][1] == l[|l| - 3];
    }
  }

  /** Any path whose last characters spell a kind's suffix in any mix of
      cases has that kind: "A.JS" is a JavaScript file. */
  lemma {:induction false} ExtensionIgnoresCase(stem: string, suffix: string, ext: Extension)
    requires Lower(suffix) == ext.Suffix()
    ensures GetExtension(stem + suffix) == Some(ext)
  {
    var p := stem + suffix;
    var l := Lower(p);
    forall i | 0 <= i < |suffix|
      ensures l[|stem| + i] == Lower(suffix)[i]
    {
      assert p[|stem| + i] == suffix[i];
    }
    assert l[|l| - |suffix|..] == Lower(suffix);
    if ext == Css {
      assert l[|l| - 3] == 'c';
    }
  }

  /** Every occurrence of `target` in s replaced by `replacement`. */
  function Replace(s: string, target: char, replacement: char): (r: string)
    ensures |r| == |s|
    ensures forall i :: 0 <= i < |s| ==> r[i] == if s[i] == target then replacement else s[i]
  {
    seq(|s|, i requires 0 <= i < |s| => if s[i] == target then replacement else s[i])
  }

  /** A rule path rewritten into the native separator `sep`. */
  function OsPath(sep: char, p: string): (r: string)
    ensures |r| == |p|
    ensures sep == '/' ==> '\\' !in r
    ensures sep != '/' ==> '/' !in r
    ensures forall i :: 0 <= i < |p| ==> r[i] == p[i] || r[i] == sep
    ensures forall i :: 0 <= i < |p| && p[i] != '/' && p[i] != '\\' ==> r[i] == p[i]
  {
    if sep == '/' then Replace(p, '\\', sep) else Replace(p, '/', sep)
  }

  /** Joining a directory and a path the way POSIX `os.path.join` does, with
      `sep` as separator: a rooted p stands alone, otherwise exactly one
      separator is put between the two. */
  function Join(sep: char, base: string, p: string): (r: string)
    ensures |p| > 0 && p[0] == sep ==> r == p
    ensures EndsWith(r, p)
    ensures !(|p| > 0 && p[0] == sep) ==>
      && |base| <= |r| && r[..|base|] == base
      && (|r| == |base| + |p| <==> |base| == 0 || base[|base| - 1] == sep)
      && (|r| != |base| + |p| ==> |r| == |base| + 1 + |p| && r[|base|] == sep)
  {
    if |p| > 0 && p[0] == sep then p
    else if |base| == 0 || base[|base| - 1] == sep then base + p
    else base + [sep] + p
  }

  /** The slice `s[n:]`, empty once n passes the end. */
  function Drop(s: string, n: nat): (r: string)
    ensures |r| == if n <= |s| then |s| - n else 0
    ensures EndsWith(s, r)
  {
    if n <= |s| then s[n..] else []
  }

  /** The project-relative, forward-slash form of a path: an absolute path
      loses as many leading characters as the project directory `base` has,
      plus one for the separator; the prefix itself is not compared. */
  function RelativePath(sep: char, base: string, p: string): (r: string)
    requires sep == '/' ==> |p| > 0
    ensures |r| <= |p|
    ensures sep == '/' ==> EndsWith(p, r)
    ensures sep == '/' && p[0] != '/' ==> r == p
    ensures sep == '/' && p[0] == '/' ==> |r| == if |base| < |p| then |p| - |base| - 1 else 0
    ensures sep != '/' ==> sep !in r
  {
    if sep == '/' then
      if p[0] == '/' then Drop(p, |base| + 1) else p
    else
      var q := if |p| >= 2 && p[..2] == "C:" then Drop(p, |base| + 1) else p;
      Replace(q, sep, '/')
  }

  /** A forward-slash project path, resolved against the project directory
      for I/O and made relative again, comes back unchanged, under either
      separator convention. */
  lemma RelativeOfResolved(sep: char, base: string, rel: string)
    requires sep == '/' || sep == '\\'
    requires sep == '/' ==> |base| > 0 && base[0] == '/'
    requires sep == '\\' ==> |base| >= 2 && base[..2] == "C:"
    requires |base| > 0 && base[|base| - 1] != sep
    requires '\\' !in rel
    requires |rel| == 0 || rel[0] != '/'
    ensures RelativePath(sep, base, Join(sep, base, OsPath(sep, rel))) == rel
  {
    if sep == '/' {
      PosixRoundTrip(base, rel);
    } else {
      WindowsRoundTrip(base, rel);
    }
  }

  lemma PosixRoundTrip(base: string, rel: string)
    requires |base| > 0 && base[0] == '/' && base[|base| - 1] != '/'
    requires '\\' !in rel
    requires |rel| == 0 || rel[0] != '/'
    ensures RelativePath('/', base, Join('/', base, OsPath('/', rel))) == rel
  {
    var q := OsPath('/', rel);
    assert q == rel;
    var p := base + "/" + rel;
    assert Join('/', base, q) == p;
    assert p[|base| + 1..] == rel;
  }

  lemma WindowsRoundTrip(base: string, rel: string)
    requires |base| >= 2 && base[..2] == "C:" && base[|base| - 1] != '\\'
    requires '\\' !in rel
    requires |rel| == 0 || rel[0] != '/'
    ensures RelativePath('\\', base, Join('\\', base, OsPath('\\', rel))) == rel
  {
    var q := OsPath('\\', rel);
    assert |q| == 0 || q[0] != '\\';
    var p := base + ['\\'] + q;
    assert Join('\\', base, q) == p;
    assert p[..2] == base[..2];
    assert p[|base| + 1..] == q;
    var back := Replace(q, '\\', '/');
    forall i | 0 <= i < |rel|
      ensures back[i] == rel[i]
    {
      assert rel[i] != '\\';
    }
    assert back == rel;
  }

  /** The directory prefix is cut by length alone: an absolute path under any
      other directory whose name has the same length as the project's is
      treated as if it lay inside the project. */
  lemma RelativeCutsByLength(base: string, other: string, rest: string)
    requires |other| == |base| && |other| > 0 && other[0] == '/'
    ensures RelativePath('/', base, other + "/" + rest) == rest
  {
    assert (other + "/" + rest)[|base| + 1..] == rest;
  }
}

=== FILE: settings.dfy ===
/** The settings value, already parsed: per asset kind, a list of minify
    rules and a list of merge rules. */
module Settings {
  import opened Wrappers
  import opened Paths

  /** A `minify_files` entry: `from` is minified into `to`. */
  datatype MinifyRule = MinifyRule(source: string, target: string)

  /** A `merge_files` entry: the `from` list is concatenated into `to`, which
      is then minified into `to_min`. Order and repeats in `sources` matter. */
  datatype MergeRule = MergeRule(sources: seq<string>, merged: string, minified: string)

  /** One kind's entry; a key the settings leave out is None. */
  datatype KindSettings = KindSettings(minifyFiles: Option<seq<MinifyRule>>, mergeFiles: Option<seq<MergeRule>>)

  /** The settings, keyed by kind name ("js", "css"). */
  type Config = map<string, KindSettings>

  /** The two rule lists of one kind. */
  datatype RuleLists = RuleLists(minify: seq<MinifyRule>, merge: seq<MergeRule>)

  /** Truthiness of the loaded settings: present and not the empty mapping. */
  predicate Truthy(settings: Option<Config>) {
    settings.Some? && |settings.value| > 0
  }

  /** The rule lists of one kind. A kind the settings do not mention, or a
      list key its entry lacks, reads as an empty list. */
  function RulesFor(config: Config, ext: Extension): (r: RuleLists)
    ensures ext.Key() !in config ==> r == RuleLists([], [])
    ensures ext.Key() in config ==>
      && (config[ext.Key()].minifyFiles.None? ==> r.minify == [])
      && (config[ext.Key()].minifyFiles.Some? ==> r.minify == config[ext.Key()].minifyFiles.value)
      && (config[ext.Key()].mergeFiles.None? ==> r.merge == [])
      && (config[ext.Key()].mergeFiles.Some? ==> r.merge == config[ext.Key()].mergeFiles.value)
  {
    var key := ext.Suffix()[1..];
    if key in config then
      var entry := config[key];
      RuleLists(
        if entry.minifyFiles.Some? then entry.minifyFiles.value else [],
        if entry.mergeFiles.Some? then entry.mergeFiles.value else [])
    else RuleLists([], [])
  }
}

=== FILE: wrappers.dfy ===
/** Failure-carrying values shared by the other modules. */
module Wrappers {

  /** A value that may be absent, such as a settings file that does not exist. */
  datatype Option<+T> = None | Some(value: T)

  /** The outcome of a step that can abort the whole run. */
  datatype Result<+T, +E> = Success(value: T) | Failure(error: E)
}
